=== FILE: README.md ===
# Memory Manager shims and AppleDouble reader of a classic Mac OS tool emulator

The emulator runs classic Macintosh command-line tools on top of Unicorn.
This project models two parts of it in Dafny:

* **The Memory Manager shims** (`src/emulator/mac_memory.rs`). These are the
  handlers a guest program reaches when it calls NewHandle, NewPtr,
  DisposeHandle, GetHandleSize, SetHandleSize, BlockMoveData, PtrAndHand,
  HLock and the other routines. `install_shims` registers them by routine
  name. Guest memory is a sequence of bytes indexed by 32-bit address.
  Addresses past its end are unmapped, and touching one is an emulation
  fault. The heap itself is not modelled. It appears through the `Machine`
  it leaves behind: the memory, and the sizes it records for live handles
  and pointers. A heap call that a shim makes becomes an input to the
  model: the reply, constrained by what the heap promises.
* **The AppleDouble reader** (`src/apple_double.rs`). It finds a tool's
  resource fork and Finder info in an AppleDouble file. The format is
  Apple's AppleSingle/AppleDouble container, reproduced as an appendix of
  RFC 1740: a 26-byte big-endian header, then 12-byte entry descriptors,
  then the entries they point at.

Files:

| file | module | contents |
|---|---|---|
| `wrappers.dfy` | `Wrappers` | `Option` and `Result` |
| `bytes.dfy` | `Bytes` | fixed-width integers, big-endian decoding and encoding, `i16` reinterpretation |
| `guest_memory.dfy` | `GuestMemory` | guest memory, the two byte-copy loops, what each leaves behind |
| `mac_memory.dfy` | `MacMemory` | the shims |
| `shim_table.dfy` | `ShimTable` | the routine-name table `install_shims` builds |
| `apple_double.dfy` | `AppleDouble` | `probe`, `unwrap`, the record layouts, and an encoder to state round trips against |

Each copy loop is proved against the effect it has:

* A low-to-high copy is exact when the source does not start below the
  destination. Otherwise it "smears forward": the destination repeats its
  first `dest - src` source bytes.
* A high-to-low copy is exact when the source does not start above the
  destination. Otherwise it smears backward.

`SmearForwardClosedForm` and `SmearBackwardClosedForm` give both smears as
a `mod` formula.

## Model

| member | source | states |
|---|---|---|
| Bytes.AsI16 | src/apple_double.rs:30 | a big-endian `i16` field is the two's complement reading of its 16 bits: negative exactly when the top bit is set |
| Bytes.I16Bits | src/apple_double.rs:30 | every `i16` has a bit pattern that reads back as itself |
| Bytes.AsI16Bits | src/apple_double.rs:30 | reinterpreting 16 bits as an `i16` and back gives the same bits |
| ShimTable.InstalledRoutines | src/emulator/mac_memory.rs:92-111 | exactly eighteen routine names are installed, the same as those `install_shims` registers |
| Bytes.U16RoundTrip | src/apple_double.rs:57 | a `u16` field decodes to the value whose big-endian bytes it holds |
| Bytes.U32RoundTrip | src/apple_double.rs:63-65 | a `u32` field decodes to the value whose big-endian bytes it holds, at any offset |
| Bytes.U32Encodes | src/apple_double.rs:77 | re-encoding a decoded `u32` gives back the same four bytes, so decoding loses nothing |
| GuestMemory.CopyAscending | src/emulator/mac_memory.rs:59-61 | the low-to-high byte loop writes only the destination; it copies exactly when `src >= dest`, and smears forward when `src < dest` |
| GuestMemory.CopyDescending | src/emulator/mac_memory.rs:63-66 | the high-to-low byte loop writes only the destination; it copies exactly when `src <= dest`, and smears backward when `src > dest` |
| GuestMemory.SmearForwardClosedForm | src/emulator/mac_memory.rs:59-61 | after a forward smear, destination byte `k` holds source byte `k mod (dest - src)` |
| GuestMemory.SmearBackwardClosedForm | src/emulator/mac_memory.rs:63-66 | after a backward smear, destination byte `k` from the top holds source byte `k mod (src - dest)` from the top |
| GuestMemory.DisjointSmearForward | src/emulator/mac_memory.rs:58-61 | when the ranges do not overlap, a forward smear is the exact copy |
| GuestMemory.DisjointSmearBackward | src/emulator/mac_memory.rs:62-66 | when the ranges do not overlap, a backward smear is the exact copy |
| MacMemory.NewHandle | src/emulator/mac_memory.rs:9-13 | returns the heap's new handle and machine, or propagates the heap's error with nothing changed |
| MacMemory.NewPtr | src/emulator/mac_memory.rs:15-19 | returns the heap's new pointer and machine, or propagates the heap's error with nothing changed |
| MacMemory.DisposePtr | src/emulator/mac_memory.rs:21-25 | returns no value after the heap frees the pointer, or propagates the heap's error with nothing changed |
| MacMemory.SetPtrSize | src/emulator/mac_memory.rs:32-36 | returns no value whether or not the heap could resize, or propagates the heap's error with nothing changed |
| MacMemory.DisposeHandle | src/emulator/mac_memory.rs:38-42 | returns no value after the heap frees the handle, or propagates the heap's error with nothing changed |
| MacMemory.PtrSize | src/emulator/mac_memory.rs:29 | the heap's size lookup succeeds exactly for a live pointer and gives its recorded size |
| MacMemory.HandleSize | src/emulator/mac_memory.rs:80 | the heap's size lookup succeeds exactly for a live handle and gives its recorded size |
| MacMemory.ForwardValue | src/emulator/mac_memory.rs:9-19 | NewHandle and NewPtr return the heap's value and its machine on success; on a heap error they propagate the error and change nothing |
| MacMemory.ForwardVoid | src/emulator/mac_memory.rs:21-42 | DisposePtr, DisposeHandle and SetPtrSize return no value on success, whatever the heap returned; they propagate a heap error with nothing changed |
| MacMemory.GetPtrSize | src/emulator/mac_memory.rs:27-30 | returns the recorded size of a live pointer, and fails exactly for an unknown pointer, with the heap's `UnknownBlock` error; the machine is unchanged |
| MacMemory.GetHandleSize | src/emulator/mac_memory.rs:44-47 | returns the recorded size of a live handle, and fails exactly for an unknown handle, with the heap's `UnknownBlock` error; the machine is unchanged |
| MacMemory.SetHandleSize | src/emulator/mac_memory.rs:49-53 | the guest sees no value, whether the heap grew the handle or had no room; only a heap error is propagated, as the heap's own fault; when resized, the result is the machine the heap left, in which the handle has the requested size; otherwise the machine is unchanged |
| MacMemory.StubReturnVoid | src/emulator/mac_memory.rs:5-7 | the stubbed routines return no value and change nothing |
| MacMemory.HGetState | src/emulator/mac_memory.rs:72-75 | HGetState reports state 0 for any handle and changes nothing |
| MacMemory.BlockMoveData | src/emulator/mac_memory.rs:55-70 | as written: equal addresses or zero length do nothing; otherwise only the destination changes; an overlapping move with `src < dest` smears forward and one with `src > dest` smears backward; disjoint moves are exact; an unmapped range faults, before any write when `src > dest`, and after the mapped part of the destination when `src < dest` |
| MacMemory.BlockMoveDataOverlapSafe | src/emulator/mac_memory.rs:55-70 | the corrected move: every mapped move, overlapping or not, leaves the destination holding the source's old bytes, and nothing outside it changes |
| MacMemory.ReversedDirectionSmears | src/emulator/mac_memory.rs:62-66 | a concrete overlapping move that the as-written BlockMoveData gets wrong |
| MacMemory.AppendLoopEstablishes | src/emulator/mac_memory.rs:82-86 | the append loop, run after the grow, establishes what PtrAndHand promises |
| MacMemory.AppendFaultEstablishes | src/emulator/mac_memory.rs:83-84 | an append loop stopped by a read fault leaves the grown handle with its old bytes, with the mapped source bytes copied into the start of its tail and every byte past them as the heap left it |
| MacMemory.PtrAndHand | src/emulator/mac_memory.rs:77-90 | an unknown handle fails with nothing changed; if the heap has no room, the result is NotEnoughMemory with nothing changed; a heap error is propagated; after a successful grow the result is 0, the handle is `size` bytes longer, its old bytes are kept at the start of the block the heap chose, and only the new tail is written, with the bytes from `ptr` when the ranges do not overlap and smeared forward when `ptr` lies just below the tail; a read from unmapped memory faults after the grow, with only the bytes copied before the fault written |
| ShimTable.ClearVariantsShareHandlers | src/emulator/mac_memory.rs:93-96 | NewHandleClear and NewPtrClear reach the same handlers as NewHandle and NewPtr |
| ShimTable.StubbedRoutinesDoNothing | src/emulator/mac_memory.rs:97-109 | HLock, HUnlock, HLockHi, MoveHHi and HSetState reach the void stub, which changes nothing |
| AppleDouble.EntryTypeOf | src/apple_double.rs:8-22 | an id maps to the entry type with that id, and to none exactly when no entry type has it |
| AppleDouble.Probe | src/apple_double.rs:76-78 | true exactly when the first four bytes are 00 05 16 07 |
| AppleDouble.HeaderAt | src/apple_double.rs:51-58 | the header fields read from a file re-encode to its first 26 bytes, so the layout loses nothing |
| AppleDouble.EntryAt | src/apple_double.rs:60-66 | an entry descriptor read at an offset re-encodes to the 12 bytes there |
| AppleDouble.FileInfoAt | src/apple_double.rs:24-49 | a file info record read at an offset, with its signed location words, re-encodes to the 30 bytes there |
| AppleDouble.DecodeHeader | src/apple_double.rs:51-58 | the header reads exactly when the file has 26 bytes; re-encoding it gives back those bytes |
| AppleDouble.HeaderRoundTrip | src/apple_double.rs:51-58 | an encoded header reads back as itself, whatever follows it |
| AppleDouble.DecodeEntries | src/apple_double.rs:84-88 | the table reads exactly when all `count` descriptors fit; descriptor `k` comes from offset `26 + 12k`; a short file is a read error, never a partial table |
| AppleDouble.EntryRoundTrip | src/apple_double.rs:60-66 | an encoded entry descriptor reads back as itself, at any offset |
| AppleDouble.FileInfoRoundTrip | src/apple_double.rs:44-49 | an encoded Macintosh file info record, meaning the Finder info and 16 extended bytes, reads back as itself |
| AppleDouble.Visit | src/apple_double.rs:94-103 | one entry of the walk fails exactly when it does not fit in the file, with the error for its type; only resource fork and file info entries change what was found |
| AppleDouble.Scan | src/apple_double.rs:93-104 | the walk succeeds exactly when every entry fits in the file |
| AppleDouble.ScanFailure | src/apple_double.rs:93-104 | a failed walk fails with the error of the first entry that does not fit: out of range for a resource fork, truncated for file info |
| AppleDouble.ScanResult | src/apple_double.rs:93-104 | when every entry fits, the resource fork is that of the last resource fork entry, or empty if there is none; the file info is that of the last file info entry |
| AppleDouble.OtherEntriesIgnored | src/apple_double.rs:96-102 | deleting all entries other than resource fork and file info entries (`Relevant` keeps exactly those) does not change the walk's outcome |
| AppleDouble.Unwrap | src/apple_double.rs:80-113 | a header or entry table running past the end is a read error; the two panics happen only once the table has been read; on success the header is the one at the start of the file |
| AppleDouble.UnwrapFailure | src/apple_double.rs:80-113 | unwrap fails as truncated when the header or the entry table runs past the end, with the first misfit entry's error when an entry does not fit, and with missing file info when there is no file info entry |
| AppleDouble.UnwrapSuccess | src/apple_double.rs:80-113 | in every other case unwrap succeeds, returning the header as read, the record of the last file info entry and the bytes of the last resource fork entry |
| AppleDouble.BuildUnwraps | src/apple_double.rs:80-113 | a file built from a header, a file info record and a resource fork unwraps to exactly those, whatever its magic number |
| AppleDouble.BuildProbe | src/apple_double.rs:76-78 | probe accepts a built file exactly when its magic is 0x00051607; unwrap does not check the magic |

## Left out

- The heap (`state.heap`): allocation, disposal, resizing, compaction. Its replies are inputs. `ResizedAsPromised` states what a successful resize must leave, and `HandleWellPlaced` states how a live handle sits in memory. The heap's module is not part of this model.
- Argument reading (`ArgReader::read1/2/3`) and how a guest call reaches a handler registered by routine name: arguments are parameters. An argument read that faults is not modelled.
- `install_shim_function` and the emulator state: the table is the finished name-to-handler map.
- Unicorn memory as separately mapped regions: mapped memory is modelled as one prefix of the address space. A fault is the single value `MemoryFault`.
- MacMemory.BlockMoveData, MacMemory.PtrAndHand: an address sum that passes 0xFFFF_FFFF is reported as a memory fault. The source's `u32` additions `src + i`, `dest + i`, `src + inv_i` and `ptr + i` panic there in a debug build and wrap around in a release build, whatever is mapped: moving 0x20 bytes from 0xFFFF_FFF0 to 0x10 overflows on its first read. The model gives `MemoryFault` for both and does not model the wrapped accesses.
- MacMemory.PtrAndHand: requires that the handle's current size plus `size` stays below 2^32. The source's `current_size + size` would overflow there.
- MacMemory.PtrAndHand: a fault while reading the master pointer or writing the tail is not modelled, because the heap's promise places both in mapped memory.
- MacMemory.NotEnoughMemory: the value assumes `OSErr::NotEnoughMemory` is memFullErr (-108) as a 32-bit two's complement value; `src/common` is not part of this model.
- MacMemory.BlockMoveDataOverlapSafe: on an unmapped range it faults before writing anything, rather than after a partial copy. It is the corrected definition and not code the source contains.
- AppleDouble.Probe: requires at least four bytes. The source's slice `file[0x0..0x4]` panics on a shorter file.
- AppleDouble.Unwrap: the two panics of the source are modelled as errors. A resource fork slice out of bounds gives `ResourceOutOfRange`; a missing file info entry (`file_info.unwrap()`) gives `MissingFileInfo`. `IsPanic` tells them apart from binread's `Truncated`.
- AppleDouble: `ExtendedFinderInfo` is not read by `unwrap`, and so it is not modelled. The 16 extended bytes are kept raw, as the source keeps them.
- AppleDouble: binread's error values are not modelled beyond "the read ran past the end" (`Truncated`).
- AppleDouble: `offset + length` is computed as an unbounded integer; on a 32-bit target the source's `usize` sum could overflow.

## Findings

| source | as written | input that shows it | evidently intended | confidence | as-written member | corrected member |
|---|---|---|---|---|---|---|
| src/emulator/mac_memory.rs:58-66 | copies low-to-high when `src < dest` and high-to-low when `src > dest` | guest bytes 0..29 holding their own addresses; move 20 bytes from 10 to 0 (`src > dest`, overlapping): the high-to-low loop overwrites bytes 10..19 before reading them, so address 0 ends up holding 20 instead of 10 | BlockMoveData moves overlapping blocks correctly (memmove), which needs high-to-low when `src < dest` and low-to-high when `src > dest` | high, not executed | MacMemory.ReversedDirectionSmears | MacMemory.BlockMoveDataOverlapSafe |

The shim table still routes "BlockMoveData" to the as-written handler,
`MacMemory.BlockMoveData`, whose contract states the smear. Disjoint moves,
which are the usual case, are exact under both definitions.

=== FILE: apple_double.dfy ===
/** The AppleDouble container (Apple's AppleSingle/AppleDouble format,
    reproduced as an appendix of RFC 1740) as the emulator reads it to find
    a tool's resource fork and Finder info: a 26-byte header, a table of
    12-byte entry descriptors, and the entries they point at, all
    big-endian. */
module AppleDouble {
  import opened Wrappers
  import opened Bytes

  const Magic: u32 := 0x0005_1607
  const HeaderSize: nat := 26
  const EntrySize: nat := 12
  /** A `MacFileInfo` record: 14 bytes of Finder info, 16 extended bytes. */
  const FileInfoSize: nat := 30

  type Bytes16 = s: seq<byte> | |s| == 16 witness [0, 0, 0, 0, 0, 0, 0, 0, 0, 0, 0, 0, 0, 0, 0, 0]

  datatype EntryType =
    | DataFork | ResourceFork | RealName | Comment | IconBW | IconColor
    | FileDates | MacintoshFileInfo | MSDOSFileInfo | ShortName | DirectoryID

  /** The id the format assigns to each entry type. */
  function EntryTypeId(t: EntryType): u32 {
    match t
    case DataFork => 1
    case ResourceFork => 2
    case RealName => 3
    case Comment => 4
    case IconBW => 5
    case IconColor => 6
    case FileDates => 8
    case MacintoshFileInfo => 9
    case MSDOSFileInfo => 12
    case ShortName => 13
    case DirectoryID => 15
  }

  /** `FromPrimitive::from_u32`: the entry type with this id, if any. */
  function EntryTypeOf(id: u32): (r: Option<EntryType>)
    ensures r.Some? ==> EntryTypeId(r.value) == id
    ensures r.None? ==> forall t :: EntryTypeId(t) != id
  {
    match id
    case 1 => Some(DataFork)
    case 2 => Some(ResourceFork)
    case 3 => Some(RealName)
    case 4 => Some(Comment)
    case 5 => Some(IconBW)
    case 6 => Some(IconColor)
    case 8 => Some(FileDates)
    case 9 => Some(MacintoshFileInfo)
    case 12 => Some(MSDOSFileInfo)
    case 13 => Some(ShortName)
    case 15 => Some(DirectoryID)
    case _ => None
  }

  /** Magic, version and filler are read but never checked. */
  datatype Header = Header(magic: u32, version: u32, filler: Bytes16, entryCount: u16)

  datatype Entry = Entry(id: u32, offset: u32, length: u32)

  datatype FinderInfo = FinderInfo(typeId: u32, creatorId: u32, flags: u16, location: (i16, i16))

  /** The extended Finder info is kept as the 16 raw bytes. */
  datatype MacFileInfo = MacFileInfo(finderInfo: FinderInfo, extendedInfo: Bytes16)

  datatype File = File(header: Header, fileInfo: MacFileInfo, resource: seq<byte>)

  datatype Error =
    | Truncated            // a read ran past the end of the input (binread's error)
    | ResourceOutOfRange   // the resource fork's slice is out of bounds (a panic)
    | MissingFileInfo      // no Macintosh file info entry (`file_info.unwrap()` panics)

  /** Whether an error is one the source reports by panicking rather than
      by returning `Err`. */
  predicate IsPanic(e: Error) {
    !e.Truncated?
  }

  // ---------------------------------------------------------------------
  // Decoding

  /** `probe`: does the file start with the AppleDouble magic number? */
  function Probe(file: seq<byte>): (r: bool)
    requires |file| >= 4
    ensures r <==> file[..4] == [0x00, 0x05, 0x16, 0x07]
  {
    U32Encodes(file, 0);
    assert EncodeU32(Magic) == [0x00, 0x05, 0x16, 0x07];
    U32At(file, 0) == Magic
  }

  /** The 26-byte header at the start of the file; it loses nothing, since
      re-encoding it gives back those bytes. */
  function HeaderAt(file: seq<byte>): (r: Header)
    requires HeaderSize <= |file|
    ensures EncodeHeader(r) == file[..HeaderSize]
  {
    U32Encodes(file, 0);
    U32Encodes(file, 4);
    U16Encodes(file, 24);
    assert file[..HeaderSize] == file[0..4] + file[4..8] + file[8..24] + file[24..26];
    Header(U32At(file, 0), U32At(file, 4), file[8..24], U16At(file, 24))
  }

  function DecodeHeader(file: seq<byte>): (r: Result<Header, Error>)
    ensures r.Ok? <==> HeaderSize <= |file|
    ensures r.Ok? ==> EncodeHeader(r.value) == file[..HeaderSize]
  {
    if |file| < HeaderSize then Err(Truncated) else Ok(HeaderAt(file))
  }

  /** The 12-byte entry descriptor at `at`; re-encoding it gives back those
      bytes. */
  function EntryAt(file: seq<byte>, at: nat): (r: Entry)
    requires at + EntrySize <= |file|
    ensures EncodeEntry(r) == file[at..at + EntrySize]
  {
    U32Encodes(file, at);
    U32Encodes(file, at + 4);
    U32Encodes(file, at + 8);
    assert file[at..at + EntrySize] == file[at..at + 4] + file[at + 4..at + 8] + file[at + 8..at + 12];
    Entry(U32At(file, at), U32At(file, at + 4), U32At(file, at + 8))
  }

  /** The first `count` entry descriptors, which follow the header back to
      back; reading past the end of the input is an error, never a partial
      table. */
  function DecodeEntries(file: seq<byte>, count: nat): (r: Result<seq<Entry>, Error>)
    requires HeaderSize <= |file|
    ensures r.Ok? <==> HeaderSize + EntrySize * count <= |file|
    ensures r.Err? ==> r.error == Truncated
    ensures r.Ok? ==>
      |r.value| == count &&
      forall k :: 0 <= k < count ==> r.value[k] == EntryAt(file, HeaderSize + EntrySize * k)
  {
    if count == 0 then Ok([])
    else
      var at := HeaderSize + EntrySize * (count - 1);
      assert at + EntrySize == HeaderSize + EntrySize * count;
      var earlier :- DecodeEntries(file, count - 1);
      if at + EntrySize <= |file| then Ok(earlier + [EntryAt(file, at)]) else Err(Truncated)
  }

  /** The 30-byte Macintosh file info record at `at`: type, creator, flags,
      the two signed coordinates of the location, and 16 extended bytes.
      Re-encoding it gives back those bytes. */
  function FileInfoAt(file: seq<byte>, at: nat): (r: MacFileInfo)
    requires at + FileInfoSize <= |file|
    ensures EncodeFileInfo(r) == file[at..at + FileInfoSize]
  {
    U32Encodes(file, at);
    U32Encodes(file, at + 4);
    U16Encodes(file, at + 8);
    U16Encodes(file, at + 10);
    U16Encodes(file, at + 12);
    AsI16Bits(U16At(file, at + 10));
    AsI16Bits(U16At(file, at + 12));
    assert file[at..at + FileInfoSize] == file[at..at + 4] + file[at + 4..at + 8] + file[at + 8..at + 10]
      + file[at + 10..at + 12] + file[at + 12..at + 14] + file[at + 14..at + 30];
    MacFileInfo(
      FinderInfo(U32At(file, at), U32At(file, at + 4), U16At(file, at + 8),
                 (AsI16(U16At(file, at + 10)), AsI16(U16At(file, at + 12)))),
      file[at + 14..at + 30])
  }

  /** What the walk over the entries has collected so far. */
  datatype Found = Found(resource: seq<byte>, fileInfo: Option<MacFileInfo>)

  /** One step of the walk over the entries: a resource fork entry replaces
      the resource with its slice of the file, a Macintosh file info entry
      replaces the file info with the record at its offset, and every other
      entry is passed over. */
  function Visit(file: seq<byte>, found: Found, e: Entry): (r: Result<Found, Error>)
    ensures r.Ok? <==> Fits(file, e)
    ensures r.Err? ==> r.error == MisfitError(e)
    ensures r.Ok? ==>
      && r.value.resource == (if e.id == EntryTypeId(ResourceFork)
                              then file[e.offset..e.offset as int + e.length as int] else found.resource)
      && r.value.fileInfo == (if e.id == EntryTypeId(MacintoshFileInfo)
                              then Some(FileInfoAt(file, e.offset)) else found.fileInfo)
  {
    match EntryTypeOf(e.id)
    case Some(ResourceFork) =>
      if e.offset as int + e.length as int <= |file| then
        Ok(found.(resource := file[e.offset..e.offset as int + e.length as int]))
      else Err(ResourceOutOfRange)
    case Some(MacintoshFileInfo) =>
      if e.offset as int + FileInfoSize <= |file| then Ok(found.(fileInfo := Some(FileInfoAt(file, e.offset))))
      else Err(Truncated)
    case _ => Ok(found)
  }

  /** The walk over the entries in table order; the first error ends it. */
  function Scan(file: seq<byte>, entries: seq<Entry>): (r: Result<Found, Error>)
    ensures r.Ok? <==> AllFit(file, entries)
  {
    if entries == [] then Ok(Found([], None))
    else
      var earlier := entries[..|entries| - 1];
      assert forall k :: 0 <= k < |earlier| ==> entries[k] == earlier[k];
      var found :- Scan(file, earlier);
      Visit(file, found, entries[|entries| - 1])
  }

  /** `unwrap`: the header, the resource fork and the Finder info of an
      AppleDouble file. A short header or entry table is binread's error;
      the two panics of the source can only happen once both were read.
      `UnwrapFailure` and `UnwrapSuccess` say which outcome each file has. */
  function Unwrap(file: seq<byte>): (r: Result<File, Error>)
    ensures !TableFits(file) ==> r == Err(Truncated)
    ensures r.Err? && IsPanic(r.error) ==> TableFits(file)
    ensures r.Ok? ==> TableFits(file) && r.value.header == HeaderAt(file)
  {
    var header :- DecodeHeader(file);
    var entries :- DecodeEntries(file, header.entryCount);
    var found :- Scan(file, entries);
    if found.fileInfo.None? then Err(MissingFileInfo)
    else Ok(File(header, found.fileInfo.value, found.resource))
  }

  // ---------------------------------------------------------------------
  // Encoding, the inverse the round trips are stated against

  function EncodeHeader(h: Header): (r: seq<byte>)
    ensures |r| == HeaderSize
  {
    EncodeU32(h.magic) + EncodeU32(h.version) + h.filler + EncodeU16(h.entryCount)
  }

  function EncodeEntry(e: Entry): (r: seq<byte>)
    ensures |r| == EntrySize
  {
    EncodeU32(e.id) + EncodeU32(e.offset) + EncodeU32(e.length)
  }

  function EncodeFileInfo(info: MacFileInfo): (r: seq<byte>)
    ensures |r| == FileInfoSize
  {
    var f := info.finderInfo;
    EncodeU32(f.typeId) + EncodeU32(f.creatorId) + EncodeU16(f.flags)
      + EncodeU16(I16Bits(f.location.0)) + EncodeU16(I16Bits(f.location.1)) + info.extendedInfo
  }

  /** A header decodes from its encoding, whatever follows it. */
  lemma HeaderRoundTrip(h: Header, rest: seq<byte>)
    ensures DecodeHeader(EncodeHeader(h) + rest) == Ok(h)
  {
    var file := EncodeHeader(h) + rest;
    assert file[0..4] == EncodeU32(h.magic);
    assert file[4..8] == EncodeU32(h.version);
    assert file[8..24] == h.filler;
    assert file[24..26] == EncodeU16(h.entryCount);
    U32RoundTrip(h.magic, file, 0);
    U32RoundTrip(h.version, file, 4);
    U16RoundTrip(h.entryCount, file, 24);
  }

  /** An entry descriptor decodes from its encoding wherever it sits. */
  lemma EntryRoundTrip(e: Entry, file: seq<byte>, at: nat)
    requires at + EntrySize <= |file| && file[at..at + EntrySize] == EncodeEntry(e)
    ensures EntryAt(file, at) == e
  {
    var enc := EncodeEntry(e);
    assert enc[0..4] == EncodeU32(e.id);
    assert enc[4..8] == EncodeU32(e.offset);
    assert enc[8..12] == EncodeU32(e.length);
    SubSlice(file, at, enc, 0, 4);
    SubSlice(file, at, enc, 4, 8);
    SubSlice(file, at, enc, 8, 12);
    U32RoundTrip(e.id, file, at);
    U32RoundTrip(e.offset, file, at + 4);
    U32RoundTrip(e.length, file, at + 8);
  }

  /** A file info record decodes from its encoding wherever it sits. */
  lemma FileInfoRoundTrip(info: MacFileInfo, file: seq<byte>, at: nat)
    requires at + FileInfoSize <= |file| && file[at..at + FileInfoSize] == EncodeFileInfo(info)
    ensures FileInfoAt(file, at) == info
  {
    var f := info.finderInfo;
    var enc := EncodeFileInfo(info);
    var loc0, loc1 := I16Bits(f.location.0), I16Bits(f.location.1);
    assert enc == EncodeU32(f.typeId) + EncodeU32(f.creatorId) + EncodeU16(f.flags)
                  + EncodeU16(loc0) + EncodeU16(loc1) + info.extendedInfo;
    assert enc[0..4] == EncodeU32(f.typeId);
    assert enc[4..8] == EncodeU32(f.creatorId);
    assert enc[8..10] == EncodeU16(f.flags);
    assert enc[10..12] == EncodeU16(loc0);
    assert enc[12..14] == EncodeU16(loc1);
    assert enc[14..30] == info.extendedInfo;
    SubSlice(file, at, enc, 0, 4);
    SubSlice(file, at, enc, 4, 8);
    SubSlice(file, at, enc, 8, 10);
    SubSlice(file, at, enc, 10, 12);
    SubSlice(file, at, enc, 12, 14);
    SubSlice(file, at, enc, 14, 30);
    U32RoundTrip(f.typeId, file, at);
    U32RoundTrip(f.creatorId, file, at + 4);
    U16RoundTrip(f.flags, file, at + 8);
    U16RoundTrip(I16Bits(f.location.0), file, at + 10);
    U16RoundTrip(I16Bits(f.location.1), file, at + 12);
  }

  /** A piece of an encoding found in the file is found at the matching
      position. */
  lemma SubSlice(s: seq<byte>, at: nat, enc: seq<byte>, i: nat, j: nat)
    requires at + |enc| <= |s| && s[at..at + |enc|] == enc && i <= j <= |enc|
    ensures s[at + i..at + j] == enc[i..j]
  {
    var piece, whole := s[at + i..at + j], s[at..at + |enc|];
    assert forall k :: 0 <= k < j - i ==> piece[k] == whole[i + k];
  }

  // ---------------------------------------------------------------------
  // What `unwrap` computes, stated independently of the walk

  /** The position of the last entry with this id, if there is one. */
  function LastWithId(entries: seq<Entry>, id: u32): (r: Option<nat>)
    ensures r.Some? ==>
      r.value < |entries| && entries[r.value].id == id &&
      forall j :: r.value < j < |entries| ==> entries[j].id != id
    ensures r.None? ==> forall j :: 0 <= j < |entries| ==> entries[j].id != id
  {
    if entries == [] then None
    else if entries[|entries| - 1].id == id then Some(|entries| - 1)
    else LastWithId(entries[..|entries| - 1], id)
  }

  /** The last entry with an id is the final entry, or else the last one
      among those before it. */
  lemma LastWithIdStep(entries: seq<Entry>, id: u32)
    requires entries != []
    ensures LastWithId(entries, id) ==
      if entries[|entries| - 1].id == id then Some(|entries| - 1)
      else LastWithId(entries[..|entries| - 1], id)
  {
  }

  /** An entry the walk can use: a resource fork lies inside the file, and
      a file info record can be read in full. Other entries always fit. */
  ghost predicate Fits(file: seq<byte>, e: Entry) {
    && (e.id == EntryTypeId(ResourceFork) ==> e.offset as int + e.length as int <= |file|)
    && (e.id == EntryTypeId(MacintoshFileInfo) ==> e.offset as int + FileInfoSize <= |file|)
  }

  ghost predicate AllFit(file: seq<byte>, entries: seq<Entry>) {
    forall k :: 0 <= k < |entries| ==> Fits(file, entries[k])
  }

  /** The position of the first entry that does not fit, if there is one. */
  ghost function FirstMisfit(file: seq<byte>, entries: seq<Entry>): (r: Option<nat>)
    ensures r.Some? ==>
      r.value < |entries| && !Fits(file, entries[r.value]) &&
      forall j :: 0 <= j < r.value ==> Fits(file, entries[j])
    ensures r.None? <==> AllFit(file, entries)
  {
    if entries == [] then None
    else if !Fits(file, entries[0]) then Some(0)
    else
      match FirstMisfit(file, entries[1..])
      case None => None
      case Some(k) => Some(k + 1)
  }

  /** The error a misfit entry is reported with. */
  function MisfitError(e: Entry): Error {
    if e.id == EntryTypeId(ResourceFork) then ResourceOutOfRange else Truncated
  }

  /** The resource fork the last resource fork entry points at, or nothing. */
  ghost function ResourceOf(file: seq<byte>, entries: seq<Entry>): seq<byte>
    requires AllFit(file, entries)
  {
    match LastWithId(entries, EntryTypeId(ResourceFork))
    case None => []
    case Some(k) => file[entries[k].offset..entries[k].offset as int + entries[k].length as int]
  }

  /** The record the last file info entry points at, if there is one. */
  ghost function FileInfoOf(file: seq<byte>, entries: seq<Entry>): Option<MacFileInfo>
    requires AllFit(file, entries)
  {
    match LastWithId(entries, EntryTypeId(MacintoshFileInfo))
    case None => None
    case Some(k) => Some(FileInfoAt(file, entries[k].offset))
  }


  lemma ResourceOfStep(file: seq<byte>, entries: seq<Entry>)
    requires entries != [] && AllFit(file, entries)
    ensures AllFit(file, entries[..|entries| - 1])
    ensures
      var e := entries[|entries| - 1];
      ResourceOf(file, entries) ==
        if e.id == EntryTypeId(ResourceFork) then file[e.offset..e.offset as int + e.length as int]
        else ResourceOf(file, entries[..|entries| - 1])
  {
    var earlier := entries[..|entries| - 1];
    assert forall k :: 0 <= k < |earlier| ==> entries[k] == earlier[k];
    LastWithIdStep(entries, EntryTypeId(ResourceFork));
  }

  lemma FileInfoOfStep(file: seq<byte>, entries: seq<Entry>)
    requires entries != [] && AllFit(file, entries)
    ensures AllFit(file, entries[..|entries| - 1])
    ensures
      var e := entries[|entries| - 1];
      FileInfoOf(file, entries) ==
        if e.id == EntryTypeId(MacintoshFileInfo) then Some(FileInfoAt(file, e.offset))
        else FileInfoOf(file, entries[..|entries| - 1])
  {
    var earlier := entries[..|entries| - 1];
    assert forall k :: 0 <= k < |earlier| ==> entries[k] == earlier[k];
    LastWithIdStep(entries, EntryTypeId(MacintoshFileInfo));
  }

  /** A failed walk fails with the error of the first entry that does not
      fit (by `Scan`'s contract there is one). */
  lemma {:induction false} ScanFailure(file: seq<byte>, entries: seq<Entry>)
    ensures Scan(file, entries).Err? ==>
      var k := FirstMisfit(file, entries).value;
      Scan(file, entries).error == MisfitError(entries[k])
  {
    if entries != [] {
      var n := |entries|;
      var earlier, e := entries[..n - 1], entries[n - 1];
      ScanFailure(file, earlier);
      assert forall k :: 0 <= k < n - 1 ==> entries[k] == earlier[k];
      assert AllFit(file, entries) <==> AllFit(file, earlier) && Fits(file, e);
      var misfit := FirstMisfit(file, entries);
      if Scan(file, earlier).Err? {
        var k := FirstMisfit(file, earlier).value;
        assert misfit.value == k;
      } else {
        if !Fits(file, e) {
          assert misfit.value == n - 1;
        }
      }
    }
  }

  /** When the walk succeeds, the last resource fork entry and the last file
      info entry win. */
  lemma {:induction false} ScanResult(file: seq<byte>, entries: seq<Entry>)
    requires AllFit(file, entries)
    ensures Scan(file, entries) == Ok(Found(ResourceOf(file, entries), FileInfoOf(file, entries)))
  {
    if entries != [] {
      var n := |entries|;
      var earlier, e := entries[..n - 1], entries[n - 1];
      ResourceOfStep(file, entries);
      FileInfoOfStep(file, entries);
      ScanResult(file, earlier);
      var found := Scan(file, earlier).value;
      assert Scan(file, entries) == Visit(file, found, e);
      assert Fits(file, e);
    }
  }

  /** Entries other than the resource fork and the file info never affect
      the walk. */
  function Relevant(entries: seq<Entry>): (r: seq<Entry>)
    ensures forall k :: 0 <= k < |r| ==>
      r[k].id == EntryTypeId(ResourceFork) || r[k].id == EntryTypeId(MacintoshFileInfo)
    ensures forall e :: e in r <==>
      e in entries && (e.id == EntryTypeId(ResourceFork) || e.id == EntryTypeId(MacintoshFileInfo))
  {
    if entries == [] then []
    else
      var e := entries[|entries| - 1];
      var earlier := Relevant(entries[..|entries| - 1]);
      if e.id == EntryTypeId(ResourceFork) || e.id == EntryTypeId(MacintoshFileInfo)
      then earlier + [e] else earlier
  }

  lemma {:induction false} OtherEntriesIgnored(file: seq<byte>, entries: seq<Entry>)
    ensures Scan(file, entries) == Scan(file, Relevant(entries))
  {
    if entries != [] {
      var n := |entries|;
      var e := entries[n - 1];
      OtherEntriesIgnored(file, entries[..n - 1]);
      var earlier := Relevant(entries[..n - 1]);
      if e.id == EntryTypeId(ResourceFork) || e.id == EntryTypeId(MacintoshFileInfo) {
        assert (earlier + [e])[..|earlier|] == earlier;
      } else if Scan(file, entries[..n - 1]).Ok? {
      }
    }
  }

  // ---------------------------------------------------------------------
  // `unwrap` as a whole

  /** The header can be read and the entry table it announces lies inside
      the file. */
  ghost predicate TableFits(file: seq<byte>) {
    HeaderSize <= |file| && HeaderSize + EntrySize * HeaderAt(file).entryCount as int <= |file|
  }

  ghost function Table(file: seq<byte>): seq<Entry>
    requires TableFits(file)
  {
    DecodeEntries(file, HeaderAt(file).entryCount as nat).value
  }

  /** `unwrap` fails as truncated when the header or the entry table runs
      past the end of the file, with the error of the first entry that does
      not fit, and with missing file info when there is no file info
      entry. */
  lemma UnwrapFailure(file: seq<byte>)
    ensures !TableFits(file) ==> Unwrap(file) == Err(Truncated)
    ensures TableFits(file) && !AllFit(file, Table(file)) ==>
      var k := FirstMisfit(file, Table(file)).value;
      Unwrap(file) == Err(MisfitError(Table(file)[k]))
    ensures (TableFits(file) && AllFit(file, Table(file)) &&
             LastWithId(Table(file), EntryTypeId(MacintoshFileInfo)).None?) ==>
      Unwrap(file) == Err(MissingFileInfo)
  {
    if TableFits(file) {
      ScanFailure(file, Table(file));
      if AllFit(file, Table(file)) {
        ScanResult(file, Table(file));
      }
    }
  }

  /** Otherwise `unwrap` succeeds, with the header as read, the record of
      the last file info entry and the bytes of the last resource fork
      entry. */
  lemma UnwrapSuccess(file: seq<byte>)
    ensures (TableFits(file) && AllFit(file, Table(file)) &&
             LastWithId(Table(file), EntryTypeId(MacintoshFileInfo)).Some?) ==>
      Unwrap(file) == Ok(File(HeaderAt(file), FileInfoOf(file, Table(file)).value, ResourceOf(file, Table(file))))
  {
    if TableFits(file) && AllFit(file, Table(file)) {
      ScanResult(file, Table(file));
    }
  }

  // ---------------------------------------------------------------------
  // Round trip through a file laid out the usual way

  /** A two-entry AppleDouble file: the header, a file info entry and a
      resource fork entry, then the file info record at offset 50 and the
      resource fork at offset 80. */
  function Build(header: Header, info: MacFileInfo, resource: seq<byte>): (r: seq<byte>)
    requires header.entryCount == 2 && |resource| < 0x1_0000_0000
    ensures |r| == 80 + |resource|
  {
    EncodeHeader(header)
      + EncodeEntry(Entry(EntryTypeId(MacintoshFileInfo), 50, FileInfoSize as u32))
      + EncodeEntry(Entry(EntryTypeId(ResourceFork), 80, |resource| as u32))
      + EncodeFileInfo(info)
      + resource
  }

  /** Unwrapping a built file gives back its header, file info and resource
      fork, whatever the magic number (see `BuildProbe`). */
  lemma BuildUnwraps(header: Header, info: MacFileInfo, resource: seq<byte>)
    requires header.entryCount == 2 && |resource| < 0x1_0000_0000
    ensures Unwrap(Build(header, info, resource)) == Ok(File(header, info, resource))
  {
    var file := Build(header, info, resource);
    var infoEntry := Entry(EntryTypeId(MacintoshFileInfo), 50, FileInfoSize as u32);
    var forkEntry := Entry(EntryTypeId(ResourceFork), 80, |resource| as u32);
    assert file == EncodeHeader(header) + file[26..];
    HeaderRoundTrip(header, file[26..]);
    assert file[26..38] == EncodeEntry(infoEntry);
    assert file[38..50] == EncodeEntry(forkEntry);
    assert file[50..80] == EncodeFileInfo(info);
    assert file[80..80 + |resource|] == resource;
    EntryRoundTrip(infoEntry, file, 26);
    EntryRoundTrip(forkEntry, file, 38);
    FileInfoRoundTrip(info, file, 50);
    var entries := DecodeEntries(file, 2).value;
    assert entries == [infoEntry, forkEntry];
    assert entries[..1] == [infoEntry];
    assert Scan(file, [infoEntry]) == Ok(Found([], Some(info)));
    assert Scan(file, entries) == Ok(Found(resource, Some(info)));
  }

  /** `probe` accepts a built file exactly when its header carries the magic
      number, so `unwrap` accepts files that `probe` rejects. */
  lemma BuildProbe(header: Header, info: MacFileInfo, resource: seq<byte>)
    requires header.entryCount == 2 && |resource| < 0x1_0000_0000
    ensures Probe(Build(header, info, resource)) <==> header.magic == Magic
  {
    var file := Build(header, info, resource);
    assert file[..4] == EncodeU32(header.magic);
    if Probe(file) {
      assert file[..4] == EncodeU32(Magic);
      U32RoundTrip(Magic, file, 0);
      U32RoundTrip(header.magic, file, 0);
    }
  }
}

=== FILE: bytes.dfy ===
/** Fixed-width unsigned integers and their big-endian byte encodings.
    The AppleDouble container stores multi-byte integers most significant
    byte first, and the model reads words of guest memory (a handle's
    master pointer) the same way. */
module Bytes {

  type byte = x: int | 0 <= x < 0x100
  type u16 = x: int | 0 <= x < 0x1_0000
  type u32 = x: int | 0 <= x < 0x1_0000_0000
  /** Rust's `i16`. */
  type i16 = x: int | -0x8000 <= x < 0x8000

  /** The big-endian `u16` stored in `s[at..at + 2]`. */
  function U16At(s: seq<byte>, at: nat): u16
    requires at + 2 <= |s|
  {
    (s[at] as int) * 0x100 + (s[at + 1] as int)
  }

  /** The big-endian `u32` stored in `s[at..at + 4]`. */
  function U32At(s: seq<byte>, at: nat): u32
    requires at + 4 <= |s|
  {
    (U16At(s, at) as int) * 0x1_0000 + (U16At(s, at + 2) as int)
  }

  /** Reinterprets the bits of a `u16` as a two's complement `i16`
      (Rust's `as i16`, which is what a big-endian `i16` read does). */
  function AsI16(x: u16): (r: i16)
    ensures r == x || r == x - 0x1_0000
    ensures r < 0 <==> x >= 0x8000
  {
    if x < 0x8000 then x else x - 0x1_0000
  }

  function EncodeU16(x: u16): (r: seq<byte>)
    ensures |r| == 2
  {
    [x / 0x100, x % 0x100]
  }

  function EncodeU32(x: u32): (r: seq<byte>)
    ensures |r| == 4
  {
    EncodeU16(x / 0x1_0000) + EncodeU16(x % 0x1_0000)
  }

  /** The bit pattern of an `i16`, the inverse of `AsI16`. */
  function I16Bits(x: i16): (r: u16)
    ensures AsI16(r) == x
  {
    if x < 0 then x + 0x1_0000 else x
  }

  /** Reading back the bits of a reinterpreted `u16` gives the `u16`. */
  lemma AsI16Bits(x: u16)
    ensures I16Bits(AsI16(x)) == x
  {
  }

  lemma U16RoundTrip(x: u16, s: seq<byte>, at: nat)
    requires at + 2 <= |s| && s[at..at + 2] == EncodeU16(x)
    ensures U16At(s, at) == x
  {
    assert s[at] == EncodeU16(x)[0] && s[at + 1] == EncodeU16(x)[1];
  }

  /** Decoding what `EncodeU32` wrote, wherever it sits, gives the value back. */
  lemma U32RoundTrip(x: u32, s: seq<byte>, at: nat)
    requires at + 4 <= |s| && s[at..at + 4] == EncodeU32(x)
    ensures U32At(s, at) == x
  {
    assert s[at..at + 2] == s[at..at + 4][..2] == EncodeU16(x / 0x1_0000);
    assert s[at + 2..at + 4] == s[at..at + 4][2..] == EncodeU16(x % 0x1_0000);
    U16RoundTrip(x / 0x1_0000, s, at);
    U16RoundTrip(x % 0x1_0000, s, at + 2);
  }

  lemma U16Encodes(s: seq<byte>, at: nat)
    requires at + 2 <= |s|
    ensures EncodeU16(U16At(s, at)) == s[at..at + 2]
  {
  }

  /** The other direction: re-encoding a decoded `u32` gives back the four bytes. */
  lemma U32Encodes(s: seq<byte>, at: nat)
    requires at + 4 <= |s|
    ensures EncodeU32(U32At(s, at)) == s[at..at + 4]
  {
    var hi, lo := U16At(s, at), U16At(s, at + 2);
    assert U32At(s, at) / 0x1_0000 == hi && U32At(s, at) % 0x1_0000 == lo;
    U16Encodes(s, at);
    U16Encodes(s, at + 2);
  }

  /** Two positions whose four bytes agree decode to the same `u32`. */
  lemma U32AtFrame(s: seq<byte>, at: nat, t: seq<byte>, bt: nat)
    requires at + 4 <= |s| && bt + 4 <= |t|
    requires s[at..at + 4] == t[bt..bt + 4]
    ensures U32At(s, at) == U32At(t, bt)
  {
    U32Encodes(s, at);
    U32RoundTrip(U32At(s, at), t, bt);
  }
}

=== FILE: guest_memory.dfy ===
/** The emulated guest address space as the shims see it through Unicorn:
    a byte array indexed by 32-bit guest address. Addresses at or past the
    end of the sequence are unmapped, and touching one raises an emulation
    fault. The copy loops here require their ranges mapped; the shims work
    out where a fault would stop them and run them that far. */
module GuestMemory {
  import opened Bytes

  type Memory = m: seq<byte> | |m| <= 0x1_0000_0000

  /** `[a, a + n)` is mapped. */
  predicate Mapped(m: Memory, a: nat, n: nat) {
    a + n <= |m|
  }

  /** How many bytes from `a` up are mapped. */
  function MappedFrom(m: Memory, a: nat): (r: nat)
    ensures a <= |m| ==> Mapped(m, a, r) && !Mapped(m, a, r + 1)
    ensures a > |m| ==> r == 0
  {
    if a < |m| then |m| - a else 0
  }

  /** Every byte outside `[dest, dest + len)` is as it was. */
  ghost predicate UnchangedOutside(m: Memory, m': Memory, dest: nat, len: nat) {
    |m'| == |m| &&
    forall a {:trigger m'[a]} :: 0 <= a < |m| && !(dest <= a < dest + len) ==> m'[a] == m[a]
  }

  /** `[dest, dest + len)` now holds what `[src, src + len)` held before:
      the memmove result. */
  ghost predicate CopiedExactly(m: Memory, m': Memory, src: nat, dest: nat, len: nat)
    requires Mapped(m, src, len) && Mapped(m', dest, len)
  {
    forall a :: dest <= a < dest + len ==> m'[a] == m[src + (a - dest)]
  }

  /** With `src < dest`, what a low-to-high copy leaves: the destination
      repeats with period `dest - src`, starting with the first
      `dest - src` source bytes. When the ranges are disjoint the period
      covers the whole destination and this is the exact copy. */
  ghost predicate SmearedForward(m: Memory, m': Memory, src: nat, dest: nat, len: nat)
    requires src < dest && Mapped(m, src, len) && Mapped(m', dest, len)
  {
    && (forall a :: dest <= a < dest + len && a < dest + (dest - src) ==> m'[a] == m[src + (a - dest)])
    && (forall a, b {:trigger m'[a], m'[b]} ::
          dest + (dest - src) <= a < dest + len && b == a - (dest - src) ==> m'[a] == m'[b])
  }

  /** With `dest < src`, what a high-to-low copy leaves: the destination
      repeats downwards with period `src - dest`, ending with the last
      `src - dest` source bytes. */
  ghost predicate SmearedBackward(m: Memory, m': Memory, src: nat, dest: nat, len: nat)
    requires dest < src && Mapped(m, src, len) && Mapped(m', dest, len)
  {
    SmearedAbove(m, m', src, dest, len, dest)
  }

  /** The part of a backward smear from `lo` up. */
  ghost predicate SmearedAbove(m: Memory, m': Memory, src: nat, dest: nat, len: nat, lo: nat)
    requires dest <= lo && dest < src && Mapped(m, src, len) && Mapped(m', dest, len)
  {
    && (forall a :: lo <= a < dest + len && a + (src - dest) >= dest + len ==> m'[a] == m[src + (a - dest)])
    && (forall a, b {:trigger m'[a], m'[b]} ::
          lo <= a && b < dest + len && b == a + (src - dest) ==> m'[a] == m'[b])
  }

  /** The top of the destination, from `lo` up, holds the source bytes
      at the same offsets. */
  ghost predicate CopiedAbove(m: Memory, m': Memory, src: nat, dest: nat, len: nat, lo: nat)
    requires dest <= lo && Mapped(m, src, len) && Mapped(m', dest, len)
  {
    forall a :: lo <= a < dest + len ==> m'[a] == m[src + (a - dest)]
  }

  lemma MulAtLeast(d: int, n: int)
    requires 0 < d && 1 <= n
    ensures d * n >= d
  {
  }

  /** Euclidean remainder is determined by any quotient-remainder split. */
  lemma ModUnique(x: int, d: int, k: int, r: int)
    requires 0 < d && 0 <= r < d && x == d * k + r
    ensures x % d == r
  {
    var q := x / d;
    assert d * (q - k) == r - x % d;
    if q > k {
      MulAtLeast(d, q - k);
    } else if q < k {
      MulAtLeast(d, k - q);
    }
  }

  lemma ModShift(x: nat, d: nat)
    requires 0 < d <= x
    ensures (x - d) % d == x % d
  {
    var q, r := (x - d) / d, (x - d) % d;
    assert x == d * (q + 1) + r;
    ModUnique(x, d, q + 1, r);
  }

  lemma ModSmall(x: nat, d: nat)
    requires x < d
    ensures x % d == x
  {
  }

  /** Where destination byte `a` of a forward smear comes from. */
  function ForwardSource(src: nat, dest: nat, a: nat): (r: nat)
    requires src < dest <= a
    ensures src <= r < dest && r - src <= a - dest
  {
    var k := (a - dest) % (dest - src);
    ModAtMost(a - dest, dest - src);
    src + k
  }

  /** Where destination byte `a` of a backward smear of `len` bytes comes from. */
  function BackwardSource(src: nat, dest: nat, len: nat, a: nat): (r: nat)
    requires dest < src && dest <= a < dest + len
    ensures src + (a - dest) <= r < src + len
  {
    var k := (dest + len - 1 - a) % (src - dest);
    ModAtMost(dest + len - 1 - a, src - dest);
    src + (len - 1) - k
  }

  lemma ModAtMost(x: nat, d: nat)
    requires 0 < d
    ensures 0 <= x % d <= x && x % d < d
  {
    if x < d {
      ModSmall(x, d);
    } else {
      var q := x / d;
      assert x == d * q + x % d;
      MulAtLeast(d, q);
    }
  }

  /** The forward smear in closed form: destination byte `k` is source byte
      `k mod (dest - src)`. */
  lemma {:induction false} SmearForwardClosedForm(m: Memory, m': Memory, src: nat, dest: nat, len: nat)
    requires src < dest && Mapped(m, src, len) && Mapped(m', dest, len)
    requires SmearedForward(m, m', src, dest, len)
    ensures forall a :: dest <= a < dest + len ==> m'[a] == m[ForwardSource(src, dest, a)]
  {
    forall a | dest <= a < dest + len
      ensures m'[a] == m[ForwardSource(src, dest, a)]
    {
      SmearForwardAt(m, m', src, dest, len, a);
    }
  }

  lemma {:induction false} SmearForwardAt(m: Memory, m': Memory, src: nat, dest: nat, len: nat, a: nat)
    requires src < dest && Mapped(m, src, len) && Mapped(m', dest, len)
    requires SmearedForward(m, m', src, dest, len)
    requires dest <= a < dest + len
    ensures m'[a] == m[ForwardSource(src, dest, a)]
    decreases a
  {
    var d := dest - src;
    if a < dest + d {
      ModSmall(a - dest, d);
      assert ForwardSource(src, dest, a) == src + (a - dest);
      assert m'[a] == m[src + (a - dest)];
    } else {
      SmearForwardAt(m, m', src, dest, len, a - d);
      ModShift(a - dest, d);
      assert ForwardSource(src, dest, a - d) == ForwardSource(src, dest, a);
      assert m'[a] == m'[a - d];
    }
  }

  /** The backward smear in closed form: counting from the top, destination
      byte `k` is source byte `k mod (src - dest)` counted from the top. */
  lemma {:induction false} SmearBackwardClosedForm(m: Memory, m': Memory, src: nat, dest: nat, len: nat)
    requires dest < src && Mapped(m, src, len) && Mapped(m', dest, len)
    requires SmearedBackward(m, m', src, dest, len)
    ensures forall a :: dest <= a < dest + len ==> m'[a] == m[BackwardSource(src, dest, len, a)]
  {
    forall a | dest <= a < dest + len
      ensures m'[a] == m[BackwardSource(src, dest, len, a)]
    {
      SmearBackwardAt(m, m', src, dest, len, a);
    }
  }

  lemma {:induction false} SmearBackwardAt(m: Memory, m': Memory, src: nat, dest: nat, len: nat, a: nat)
    requires dest < src && Mapped(m, src, len) && Mapped(m', dest, len)
    requires SmearedBackward(m, m', src, dest, len)
    requires dest <= a < dest + len
    ensures m'[a] == m[BackwardSource(src, dest, len, a)]
    decreases dest + len - a
  {
    var d := src - dest;
    if a + d >= dest + len {
      ModSmall(dest + len - 1 - a, d);
      assert BackwardSource(src, dest, len, a) == src + (a - dest);
      assert m'[a] == m[src + (a - dest)];
    } else {
      SmearBackwardAt(m, m', src, dest, len, a + d);
      ModShift(dest + len - 1 - a, d);
      assert BackwardSource(src, dest, len, a + d) == BackwardSource(src, dest, len, a);
      assert m'[a] == m'[a + d];
    }
  }

  /** When the ranges do not overlap, both smears are the exact copy. */
  lemma DisjointSmearForward(m: Memory, m': Memory, src: nat, dest: nat, len: nat)
    requires src < dest && Mapped(m, src, len) && Mapped(m', dest, len)
    requires src + len <= dest
    requires SmearedForward(m, m', src, dest, len)
    ensures CopiedExactly(m, m', src, dest, len)
  {
  }

  lemma DisjointSmearBackward(m: Memory, m': Memory, src: nat, dest: nat, len: nat)
    requires dest < src && Mapped(m, src, len) && Mapped(m', dest, len)
    requires dest + len <= src
    requires SmearedBackward(m, m', src, dest, len)
    ensures CopiedExactly(m, m', src, dest, len)
  {
  }

  /** One iteration of the low-to-high loop keeps its invariant. */
  lemma AscendingStep(m: Memory, m1: Memory, src: nat, dest: nat, len: nat, i: nat)
    requires Mapped(m, src, len) && Mapped(m, dest, len) && i < len
    requires UnchangedOutside(m, m1, dest, i)
    requires src >= dest ==> CopiedExactly(m, m1, src, dest, i)
    requires src < dest ==> SmearedForward(m, m1, src, dest, i)
    ensures var m2 := m1[dest + i := m1[src + i]];
      && UnchangedOutside(m, m2, dest, i + 1)
      && (src >= dest ==> CopiedExactly(m, m2, src, dest, i + 1))
      && (src < dest ==> SmearedForward(m, m2, src, dest, i + 1))
  {
  }

  /** One iteration of the high-to-low loop keeps its invariant; after `i`
      iterations the top `i` bytes of the destination are done. */
  lemma DescendingStep(m: Memory, m1: Memory, src: nat, dest: nat, len: nat, i: nat)
    requires Mapped(m, src, len) && Mapped(m, dest, len) && i < len
    requires UnchangedOutside(m, m1, dest + len - i, i)
    requires src <= dest ==> CopiedAbove(m, m1, src, dest, len, dest + len - i)
    requires src > dest ==> SmearedAbove(m, m1, src, dest, len, dest + len - i)
    ensures var j := len - 1 - i;
      var m2 := m1[dest + j := m1[src + j]];
      && UnchangedOutside(m, m2, dest + j, i + 1)
      && (src <= dest ==> CopiedAbove(m, m2, src, dest, len, dest + j))
      && (src > dest ==> SmearedAbove(m, m2, src, dest, len, dest + j))
  {
  }

  /** The loop `for i in 0..len { write(dest + i, read(src + i)) }`. Each
      read sees the writes of earlier iterations, so it is an exact copy
      when the source does not start below the destination, and a forward
      smear when it does. */
  method CopyAscending(m: Memory, src: nat, dest: nat, len: nat) returns (m': Memory)
    requires Mapped(m, src, len) && Mapped(m, dest, len)
    ensures UnchangedOutside(m, m', dest, len)
    ensures src >= dest ==> CopiedExactly(m, m', src, dest, len)
    ensures src < dest ==> SmearedForward(m, m', src, dest, len)
  {
    m' := m;
    var i := 0;
    while i < len
      invariant 0 <= i <= len
      invariant UnchangedOutside(m, m', dest, i)
      invariant src >= dest ==> CopiedExactly(m, m', src, dest, i)
      invariant src < dest ==> SmearedForward(m, m', src, dest, i)
    {
      AscendingStep(m, m', src, dest, len, i);
      m' := m'[dest + i := m'[src + i]];
      i := i + 1;
    }
  }

  /** The loop `for i in 0..len { let j = len - 1 - i; write(dest + j, read(src + j)) }`.
      The mirror image of `CopyAscending`: an exact copy when the source
      does not start above the destination, a backward smear when it does. */
  method CopyDescending(m: Memory, src: nat, dest: nat, len: nat) returns (m': Memory)
    requires Mapped(m, src, len) && Mapped(m, dest, len)
    ensures UnchangedOutside(m, m', dest, len)
    ensures src <= dest ==> CopiedExactly(m, m', src, dest, len)
    ensures src > dest ==> SmearedBackward(m, m', src, dest, len)
  {
    m' := m;
    var i := 0;
    while i < len
      invariant 0 <= i <= len
      invariant UnchangedOutside(m, m', dest + len - i, i)
      invariant src <= dest ==> CopiedAbove(m, m', src, dest, len, dest + len - i)
      invariant src > dest ==> SmearedAbove(m, m', src, dest, len, dest + len - i)
    {
      DescendingStep(m, m', src, dest, len, i);
      var j := len - 1 - i;
      m' := m'[dest + j := m'[src + j]];
      i := i + 1;
    }
  }

  /** A write confined to a range is confined to any range holding it. */
  lemma UnchangedOutsideWiden(m: Memory, m': Memory, dest: nat, k: nat, len: nat)
    requires k <= len && UnchangedOutside(m, m', dest, k)
    ensures UnchangedOutside(m, m', dest, len)
  {
  }

  /** A slice that lies wholly outside the written range reads the same. */
  lemma SliceOutsideUnchanged(m: Memory, m': Memory, dest: nat, len: nat, lo: nat, hi: nat)
    requires UnchangedOutside(m, m', dest, len)
    requires lo <= hi <= |m| && (hi <= dest || dest + len <= lo)
    ensures m'[lo..hi] == m[lo..hi]
  {
  }

  /** An exact copy, seen as slices. */
  lemma CopiedSlice(m: Memory, m': Memory, src: nat, dest: nat, len: nat)
    requires Mapped(m, src, len) && Mapped(m', dest, len)
    requires CopiedExactly(m, m', src, dest, len)
    ensures m'[dest..dest + len] == m[src..src + len]
  {
    var copied, source := m'[dest..dest + len], m[src..src + len];
    forall k | 0 <= k < len
      ensures copied[k] == source[k]
    {
      assert m'[dest + k] == m[src + ((dest + k) - dest)];
    }
  }

  /** The big-endian 32-bit word at `a`, as `read_u32` returns it. */
  function ReadU32(m: Memory, a: nat): u32
    requires Mapped(m, a, 4)
  {
    U32At(m, a)
  }

  /** A word outside the written range reads the same. */
  lemma ReadU32OutsideUnchanged(m: Memory, m': Memory, dest: nat, len: nat, a: nat)
    requires UnchangedOutside(m, m', dest, len)
    requires Mapped(m, a, 4) && (a + 4 <= dest || dest + len <= a)
    ensures ReadU32(m', a) == ReadU32(m, a)
  {
    SliceOutsideUnchanged(m, m', dest, len, a, a + 4);
    U32AtFrame(m', a, m, a);
  }
}

=== FILE: mac_memory.dfy ===
/** The Memory Manager shims of the emulator (Inside Macintosh: Memory):
    the handlers the guest reaches when it calls NewHandle, BlockMoveData,
    PtrAndHand and the rest.

    The heap itself is not part of this model. It is seen through the
    `Machine` it leaves behind: guest memory, in which each handle's master
    pointer cell holds the big-endian base address of its block, and the
    size the heap records for each live handle and pointer. A heap call
    the shims make is an input to the shim (its reply), constrained by the
    contract the heap promises. */
module MacMemory {
  import opened Wrappers
  import opened Bytes
  import opened GuestMemory

  /** An error a shim propagates with `?` instead of returning a value. */
  datatype Fault =
    | UnknownBlock(addr: u32)   // the heap does not track this handle or pointer
    | HeapError                 // any other error the heap reports
    | MemoryFault               // a guest read or write of an unmapped address

  /** What a shim hands back: the value for the guest's return slot, none
      for a routine without a result, or a propagated fault. */
  type FuncResult = Result<Option<u32>, Fault>

  /** `OSErr::NotEnoughMemory`, classic memFullErr (-108), as the 32-bit
      two's complement value the guest receives. */
  const NotEnoughMemory: u32 := 0x1_0000_0000 - 108

  datatype Machine = Machine(mem: Memory, handleSizes: map<u32, u32>, ptrSizes: map<u32, u32>)

  /** The base address a handle's master pointer cell holds. */
  function MasterPointer(m: Machine, h: u32): u32
    requires Mapped(m.mem, h, 4)
  {
    ReadU32(m.mem, h)
  }

  /** A live handle whose cell and block are both mapped and do not overlap. */
  ghost predicate HandleWellPlaced(m: Machine, h: u32) {
    && h in m.handleSizes
    && Mapped(m.mem, h, 4)
    && Mapped(m.mem, MasterPointer(m, h), m.handleSizes[h])
    && (h + 4 <= MasterPointer(m, h) || MasterPointer(m, h) + m.handleSizes[h] <= h)
  }

  /** What `set_handle_size(h, n)` promises when it reports success: the
      handle keeps its identity and now has size `n`, other sizes are
      untouched, and the first `min(old size, n)` bytes of the block are
      carried over, to a new base address if the block moved. */
  ghost predicate ResizedAsPromised(before: Machine, h: u32, n: u32, after: Machine)
    requires HandleWellPlaced(before, h)
  {
    var keep := if before.handleSizes[h] < n then before.handleSizes[h] else n;
    && after.handleSizes == before.handleSizes[h := n]
    && HandleWellPlaced(after, h)
    && |after.mem| == |before.mem|
    && after.ptrSizes == before.ptrSizes
    && after.mem[MasterPointer(after, h)..MasterPointer(after, h) + keep]
       == before.mem[MasterPointer(before, h)..MasterPointer(before, h) + keep]
  }

  /** The reply of the heap's `set_handle_size`: success with the machine
      it leaves, `false` (no room anywhere, nothing changed), or an error. */
  datatype ResizeReply = Resized(after: Machine) | NoRoom | ResizeFailed(fault: Fault)

  /** `get_handle_size`: the recorded size of a live handle. */
  function HandleSize(m: Machine, h: u32): (r: Result<u32, Fault>)
    ensures r.Ok? <==> h in m.handleSizes
    ensures r.Ok? ==> r.value == m.handleSizes[h]
    ensures r.Err? ==> r.error == UnknownBlock(h)
  {
    if h in m.handleSizes then Ok(m.handleSizes[h]) else Err(UnknownBlock(h))
  }

  /** `get_ptr_size`: the recorded size of a live pointer. */
  function PtrSize(m: Machine, p: u32): (r: Result<u32, Fault>)
    ensures r.Ok? <==> p in m.ptrSizes
    ensures r.Ok? ==> r.value == m.ptrSizes[p]
    ensures r.Err? ==> r.error == UnknownBlock(p)
  {
    if p in m.ptrSizes then Ok(m.ptrSizes[p]) else Err(UnknownBlock(p))
  }

  // ---------------------------------------------------------------------
  // Shims that only forward to the heap

  /** A shim that returns the heap's value: NewHandle, NewPtr. */
  function ForwardValue(m: Machine, reply: Result<(u32, Machine), Fault>): (r: (FuncResult, Machine))
    ensures r.0.Ok? <==> reply.Ok?
    ensures reply.Ok? ==> r.0.value == Some(reply.value.0) && r.1 == reply.value.1
    ensures reply.Err? ==> r.0.error == reply.error && r.1 == m
  {
    match reply
    case Ok((v, after)) => (Ok(Some(v)), after)
    case Err(f) => (Err(f), m)
  }

  /** A shim that calls the heap and throws its value away: DisposePtr,
      DisposeHandle, SetPtrSize, SetHandleSize. */
  function ForwardVoid<T>(m: Machine, reply: Result<(T, Machine), Fault>): (r: (FuncResult, Machine))
    ensures r.0.Ok? <==> reply.Ok?
    ensures reply.Ok? ==> r.0.value == None && r.1 == reply.value.1
    ensures reply.Err? ==> r.0.error == reply.error && r.1 == m
  {
    match reply
    case Ok((_, after)) => (Ok(None), after)
    case Err(f) => (Err(f), m)
  }

  function NewHandle(m: Machine, reply: Result<(u32, Machine), Fault>): (r: (FuncResult, Machine))
    ensures reply.Ok? ==> r == (Ok(Some(reply.value.0)), reply.value.1)
    ensures reply.Err? ==> r == (Err(reply.error), m)
  {
    ForwardValue(m, reply)
  }

  function NewPtr(m: Machine, reply: Result<(u32, Machine), Fault>): (r: (FuncResult, Machine))
    ensures reply.Ok? ==> r == (Ok(Some(reply.value.0)), reply.value.1)
    ensures reply.Err? ==> r == (Err(reply.error), m)
  {
    ForwardValue(m, reply)
  }

  function DisposePtr(m: Machine, reply: Result<((), Machine), Fault>): (r: (FuncResult, Machine))
    ensures reply.Ok? ==> r == (Ok(None), reply.value.1)
    ensures reply.Err? ==> r == (Err(reply.error), m)
  {
    ForwardVoid(m, reply)
  }

  function DisposeHandle(m: Machine, reply: Result<((), Machine), Fault>): (r: (FuncResult, Machine))
    ensures reply.Ok? ==> r == (Ok(None), reply.value.1)
    ensures reply.Err? ==> r == (Err(reply.error), m)
  {
    ForwardVoid(m, reply)
  }

  /** SetPtrSize: the heap's success flag never reaches the guest. */
  function SetPtrSize(m: Machine, reply: Result<(bool, Machine), Fault>): (r: (FuncResult, Machine))
    ensures reply.Ok? ==> r == (Ok(None), reply.value.1)
    ensures reply.Err? ==> r == (Err(reply.error), m)
  {
    ForwardVoid(m, reply)
  }

  /** SetHandleSize: as for SetPtrSize, success and failure look the same
      to the guest. */
  function SetHandleSize(m: Machine, h: u32, n: u32, reply: ResizeReply): (r: (FuncResult, Machine))
    requires reply.Resized? ==> HandleWellPlaced(m, h) && ResizedAsPromised(m, h, n, reply.after)
    ensures reply.ResizeFailed? <==> r.0.Err?
    ensures r.0.Ok? ==> r.0.value == None
    ensures reply.ResizeFailed? ==> r.0 == Err(reply.fault)
    ensures reply.Resized? ==> r.1 == reply.after
    ensures reply.Resized? ==> h in r.1.handleSizes && r.1.handleSizes[h] == n
    ensures !reply.Resized? ==> r.1 == m
  {
    match reply
    case Resized(after) => ForwardVoid(m, Ok((true, after)))
    case NoRoom => ForwardVoid(m, Ok((false, m)))
    case ResizeFailed(f) => ForwardVoid<bool>(m, Err(f))
  }

  function GetHandleSize(m: Machine, h: u32): (r: (FuncResult, Machine))
    ensures r.1 == m
    ensures r.0.Ok? <==> h in m.handleSizes
    ensures r.0.Ok? ==> r.0.value == Some(m.handleSizes[h])
    ensures r.0.Err? ==> r.0.error == UnknownBlock(h)
  {
    match HandleSize(m, h)
    case Ok(size) => (Ok(Some(size)), m)
    case Err(f) => (Err(f), m)
  }

  function GetPtrSize(m: Machine, p: u32): (r: (FuncResult, Machine))
    ensures r.1 == m
    ensures r.0.Ok? <==> p in m.ptrSizes
    ensures r.0.Ok? ==> r.0.value == Some(m.ptrSizes[p])
    ensures r.0.Err? ==> r.0.error == UnknownBlock(p)
  {
    match PtrSize(m, p)
    case Ok(size) => (Ok(Some(size)), m)
    case Err(f) => (Err(f), m)
  }

  // ---------------------------------------------------------------------
  // Stubs

  /** HLock, HUnlock, HLockHi, MoveHHi, HSetState: nothing happens and no
      value is returned. The emulator neither locks nor compacts. */
  function StubReturnVoid(m: Machine): (r: (FuncResult, Machine))
    ensures r.0 == Ok(None) && r.1 == m
  {
    (Ok(None), m)
  }

  /** HGetState: always reports the state byte 0, whatever the handle. */
  function HGetState(m: Machine, h: u32): (r: (FuncResult, Machine))
    ensures r.0 == Ok(Some(0)) && r.1 == m
  {
    (Ok(Some(0)), m)
  }

  // ---------------------------------------------------------------------
  // Shims that touch guest memory

  /** BlockMoveData as written: it copies low-to-high when `src < dest`
      and high-to-low when `src > dest`. That is the opposite of the
      overlap-safe choice, so an overlapping move smears the bytes of the
      overlap instead of moving them; only disjoint ranges are copied
      exactly. Equal addresses or a zero length write nothing. A move
      touching unmapped memory faults: high-to-low on its first access,
      before writing anything, and low-to-high once it has written the
      bytes of the destination that are mapped. */
  method BlockMoveData(mem: Memory, src: u32, dest: u32, len: u32) returns (mem': Memory, r: FuncResult)
    ensures src == dest || len == 0 ==> mem' == mem && r == Ok(None)
    ensures src != dest && len > 0 ==>
      (r == Ok(None) <==> Mapped(mem, src, len) && Mapped(mem, dest, len))
    ensures r == Ok(None) || r == Err(MemoryFault)
    ensures UnchangedOutside(mem, mem', dest, len)
    ensures Mapped(mem, src, len) && Mapped(mem, dest, len) ==>
      && (src < dest ==> SmearedForward(mem, mem', src, dest, len))
      && (dest < src ==> SmearedBackward(mem, mem', src, dest, len))
      && (src + len <= dest || dest + len <= src ==> CopiedExactly(mem, mem', src, dest, len))
    ensures dest < src && !Mapped(mem, src, len) ==> mem' == mem
    ensures src < dest && len > 0 && !Mapped(mem, dest, len) ==>
      var k := MappedFrom(mem, dest);
      && k < len
      && UnchangedOutside(mem, mem', dest, k)
      && (k > 0 ==> SmearedForward(mem, mem', src, dest, k))
  {
    mem', r := mem, Ok(None);
    if src < dest {
      if Mapped(mem, dest, len) {
        mem' := CopyAscending(mem, src, dest, len);
        if src + len <= dest {
          DisjointSmearForward(mem, mem', src, dest, len);
        }
      } else if len > 0 {
        var k := MappedFrom(mem, dest);
        if k > 0 {
          mem' := CopyAscending(mem, src, dest, k);
          UnchangedOutsideWiden(mem, mem', dest, k, len);
        }
        r := Err(MemoryFault);
      }
    } else if src > dest {
      if Mapped(mem, src, len) {
        mem' := CopyDescending(mem, src, dest, len);
        if dest + len <= src {
          DisjointSmearBackward(mem, mem', src, dest, len);
        }
      } else if len > 0 {
        r := Err(MemoryFault);
      }
    }
    if len == 0 {
      assert mem' == mem;
    }
  }

  /** BlockMoveData with the traversal direction the routine is documented
      to need: high-to-low when the destination is above the source,
      low-to-high when it is below. Every mapped move is then exact. A move
      touching unmapped memory is refused before anything is written. */
  method BlockMoveDataOverlapSafe(mem: Memory, src: u32, dest: u32, len: u32) returns (mem': Memory, r: FuncResult)
    ensures src == dest || len == 0 ==> mem' == mem && r == Ok(None)
    ensures src != dest && len > 0 ==>
      (r == Ok(None) <==> Mapped(mem, src, len) && Mapped(mem, dest, len))
    ensures r == Ok(None) || (r == Err(MemoryFault) && mem' == mem)
    ensures UnchangedOutside(mem, mem', dest, len)
    ensures Mapped(mem, src, len) && Mapped(mem, dest, len) ==> CopiedExactly(mem, mem', src, dest, len)
  {
    mem', r := mem, Ok(None);
    if src == dest || len == 0 {
      return;
    }
    if !(Mapped(mem, src, len) && Mapped(mem, dest, len)) {
      return mem, Err(MemoryFault);
    }
    if src < dest {
      mem' := CopyDescending(mem, src, dest, len);
    } else {
      mem' := CopyAscending(mem, src, dest, len);
    }
  }

  /** Moving 20 bytes from 10 down to 0 over a buffer holding its own
      addresses. A correct move leaves 10 at
      address 0; the as-written BlockMoveData leaves 20 there, and the
      destination is not the source. */
  lemma {:induction false} ReversedDirectionSmears(mem: Memory, mem': Memory)
    requires |mem| == 30 && forall a :: 0 <= a < 30 ==> mem[a] == a
    requires UnchangedOutside(mem, mem', 0, 20) && SmearedBackward(mem, mem', 10, 0, 20)
    ensures mem'[0] == 20 && mem'[9] == 29 && mem'[10] == 20
    ensures !CopiedExactly(mem, mem', 10, 0, 20)
  {
    assert mem'[10] == mem[20];
    assert mem'[0] == mem'[10];
    assert mem'[19] == mem[29];
    assert mem'[9] == mem'[19];
  }

  /** The state a successful PtrAndHand promises, given the machine
      `after` the heap's grow of `h` by `size` left: the handle has grown
      and still points at the block the heap chose, the block keeps its old
      bytes at its start, and only the `size` bytes after them were
      written, with the bytes read from `ptr` whenever the two ranges do
      not overlap. */
  ghost predicate Appended(m: Machine, h: u32, ptr: u32, size: u32, after: Machine, m': Machine)
    requires HandleWellPlaced(m, h) && m.handleSizes[h] + size < 0x1_0000_0000
    requires ResizedAsPromised(m, h, m.handleSizes[h] + size, after) && Mapped(after.mem, ptr, size)
  {
    && HandleGrown(m, h, size, after, m')
    && OldBytesKept(m, h, after, m')
    && TailWritten(m, h, ptr, size, after, m')
  }

  /** The handle's size has grown by `size` and its master pointer still
      holds the base the heap chose. */
  ghost predicate HandleGrown(m: Machine, h: u32, size: u32, after: Machine, m': Machine)
    requires HandleWellPlaced(m, h) && m.handleSizes[h] + size < 0x1_0000_0000
    requires ResizedAsPromised(m, h, m.handleSizes[h] + size, after)
  {
    && m'.handleSizes == m.handleSizes[h := m.handleSizes[h] + size]
    && m'.ptrSizes == m.ptrSizes
    && HandleWellPlaced(m', h)
    && MasterPointer(m', h) == MasterPointer(after, h)
  }

  /** The bytes the handle held before are at the start of its block. */
  ghost predicate OldBytesKept(m: Machine, h: u32, after: Machine, m': Machine)
    requires HandleWellPlaced(m, h) && HandleWellPlaced(after, h)
    requires m.handleSizes[h] <= after.handleSizes[h]
  {
    var old_size: nat := m.handleSizes[h];
    var base: nat, base': nat := MasterPointer(m, h), MasterPointer(after, h);
    |m'.mem| == |after.mem| && m'.mem[base'..base' + old_size] == m.mem[base..base + old_size]
  }

  /** Only the `size` bytes after the old contents were written. They are
      the bytes at `ptr` unless the two ranges overlap; when `ptr` lies
      below the tail and overlaps it, the low-to-high loop smears forward,
      as BlockMoveData does. */
  ghost predicate TailWritten(m: Machine, h: u32, ptr: u32, size: u32, after: Machine, m': Machine)
    requires HandleWellPlaced(m, h) && HandleWellPlaced(after, h)
    requires after.handleSizes[h] == m.handleSizes[h] + size && Mapped(after.mem, ptr, size)
  {
    var dest: nat := MasterPointer(after, h) as int + m.handleSizes[h] as int;
    && UnchangedOutside(after.mem, m'.mem, dest, size)
    && (ptr + size <= dest || dest <= ptr ==> m'.mem[dest..dest + size] == after.mem[ptr..ptr + size])
    && (ptr < dest < ptr + size ==> SmearedForward(after.mem, m'.mem, ptr, dest, size))
  }

  /** The state PtrAndHand leaves when a read from `ptr` faults part way:
      the handle has already grown and keeps its old bytes, and only the
      first `k` bytes of its new tail were written, where `k` is the number
      of mapped bytes from `ptr`; they hold those bytes. */
  ghost predicate AppendCutShort(m: Machine, h: u32, ptr: u32, size: u32, after: Machine, m': Machine)
    requires HandleWellPlaced(m, h) && m.handleSizes[h] + size < 0x1_0000_0000
    requires ResizedAsPromised(m, h, m.handleSizes[h] + size, after)
  {
    var dest: nat := MasterPointer(after, h) as int + m.handleSizes[h] as int;
    var k := MappedFrom(after.mem, ptr);
    && HandleGrown(m, h, size, after, m')
    && OldBytesKept(m, h, after, m')
    && UnchangedOutside(after.mem, m'.mem, dest, if k < size then k else size)
    && (0 < k <= size ==> m'.mem[dest..dest + k] == after.mem[ptr..ptr + k])
  }

  /** The byte loop, stopped by a fault after `k` bytes, establishes
      `AppendCutShort`. */
  lemma AppendFaultEstablishes(m: Machine, h: u32, ptr: u32, size: u32, after: Machine,
                               dest: nat, k: nat, mem': Memory)
    requires HandleWellPlaced(m, h) && m.handleSizes[h] + size < 0x1_0000_0000
    requires ResizedAsPromised(m, h, m.handleSizes[h] + size, after)
    requires dest == MasterPointer(after, h) + m.handleSizes[h] && Mapped(after.mem, dest, size)
    requires k == MappedFrom(after.mem, ptr) && k < size
    requires UnchangedOutside(after.mem, mem', dest, k)
    requires k > 0 ==> CopiedExactly(after.mem, mem', ptr, dest, k)
    ensures AppendCutShort(m, h, ptr, size, after, after.(mem := mem'))
  {
    var m' := after.(mem := mem');
    UnchangedOutsideWiden(after.mem, mem', dest, k, size);
    AppendKeepsHandle(m, h, size, after, dest, mem');
    AppendKeepsOldBytes(m, h, size, after, dest, mem');
    assert HandleGrown(m, h, size, after, m') && OldBytesKept(m, h, after, m');
    if k > 0 {
      CopiedSlice(after.mem, mem', ptr, dest, k);
      assert m'.mem[dest..dest + k] == after.mem[ptr..ptr + k];
    }
  }

  /** The byte loop of PtrAndHand, run on the machine the heap left,
      establishes `Appended`. `dest` is where the loop starts writing. */
  lemma {:induction false} AppendLoopEstablishes(m: Machine, h: u32, ptr: u32, size: u32, after: Machine,
                                                 dest: nat, mem': Memory)
    requires HandleWellPlaced(m, h) && m.handleSizes[h] + size < 0x1_0000_0000
    requires ResizedAsPromised(m, h, m.handleSizes[h] + size, after) && Mapped(after.mem, ptr, size)
    requires dest == MasterPointer(after, h) + m.handleSizes[h] && Mapped(after.mem, dest, size)
    requires UnchangedOutside(after.mem, mem', dest, size)
    requires ptr >= dest ==> CopiedExactly(after.mem, mem', ptr, dest, size)
    requires ptr < dest ==> SmearedForward(after.mem, mem', ptr, dest, size)
    ensures Appended(m, h, ptr, size, after, after.(mem := mem'))
  {
    var m' := after.(mem := mem');
    AppendKeepsHandle(m, h, size, after, dest, mem');
    AppendKeepsOldBytes(m, h, size, after, dest, mem');
    AppendWritesTail(m, h, ptr, size, after, dest, mem');
  }

  lemma AppendWritesTail(m: Machine, h: u32, ptr: u32, size: u32, after: Machine, dest: nat, mem': Memory)
    requires HandleWellPlaced(m, h) && HandleWellPlaced(after, h)
    requires after.handleSizes[h] == m.handleSizes[h] + size && Mapped(after.mem, ptr, size)
    requires dest == MasterPointer(after, h) + m.handleSizes[h] && Mapped(after.mem, dest, size)
    requires UnchangedOutside(after.mem, mem', dest, size)
    requires ptr >= dest ==> CopiedExactly(after.mem, mem', ptr, dest, size)
    requires ptr < dest ==> SmearedForward(after.mem, mem', ptr, dest, size)
    ensures TailWritten(m, h, ptr, size, after, after.(mem := mem'))
  {
    if ptr + size <= dest || dest <= ptr {
      if ptr < dest && size > 0 {
        DisjointSmearForward(after.mem, mem', ptr, dest, size);
      }
      CopiedSlice(after.mem, mem', ptr, dest, size);
    }
  }

  lemma AppendKeepsHandle(m: Machine, h: u32, size: u32, after: Machine, dest: nat, mem': Memory)
    requires HandleWellPlaced(m, h) && m.handleSizes[h] + size < 0x1_0000_0000
    requires ResizedAsPromised(m, h, m.handleSizes[h] + size, after)
    requires dest == MasterPointer(after, h) + m.handleSizes[h] && Mapped(after.mem, dest, size)
    requires UnchangedOutside(after.mem, mem', dest, size)
    ensures HandleGrown(m, h, size, after, after.(mem := mem'))
  {
    ReadU32OutsideUnchanged(after.mem, mem', dest, size, h);
  }

  lemma AppendKeepsOldBytes(m: Machine, h: u32, size: u32, after: Machine, dest: nat, mem': Memory)
    requires HandleWellPlaced(m, h) && m.handleSizes[h] + size < 0x1_0000_0000
    requires ResizedAsPromised(m, h, m.handleSizes[h] + size, after)
    requires dest == MasterPointer(after, h) + m.handleSizes[h] && Mapped(after.mem, dest, size)
    requires UnchangedOutside(after.mem, mem', dest, size)
    ensures OldBytesKept(m, h, after, after.(mem := mem'))
  {
    SliceOutsideUnchanged(after.mem, mem', dest, size, MasterPointer(after, h), dest);
  }

  /** PtrAndHand: appends `size` bytes read from `ptr` to the end of handle
      `h`, growing it through the heap first. On success the status is 0
      and the machine is as `Appended` describes; the bytes are read from
      guest memory as the heap left it. When the heap has no room the
      status is NotEnoughMemory and nothing is written. A read past mapped
      memory faults after the handle has grown, as `AppendCutShort` says. */
  method PtrAndHand(m: Machine, ptr: u32, h: u32, size: u32, reply: ResizeReply)
      returns (m': Machine, r: FuncResult)
    requires h in m.handleSizes ==> HandleWellPlaced(m, h) && m.handleSizes[h] + size < 0x1_0000_0000
    requires reply.Resized? ==>
      h in m.handleSizes && ResizedAsPromised(m, h, m.handleSizes[h] + size, reply.after)
    ensures h !in m.handleSizes ==> m' == m && r == Err(UnknownBlock(h))
    ensures h in m.handleSizes && reply.NoRoom? ==> m' == m && r == Ok(Some(NotEnoughMemory))
    ensures h in m.handleSizes && reply.ResizeFailed? ==> m' == m && r == Err(reply.fault)
    ensures reply.Resized? && Mapped(reply.after.mem, ptr, size) ==>
      r == Ok(Some(0)) && Appended(m, h, ptr, size, reply.after, m')
    ensures reply.Resized? && size == 0 ==> r == Ok(Some(0)) && m' == reply.after
    ensures reply.Resized? && size > 0 && !Mapped(reply.after.mem, ptr, size) ==>
      r == Err(MemoryFault) && AppendCutShort(m, h, ptr, size, reply.after, m')
  {
    var got := HandleSize(m, h);
    if got.Err? {
      return m, Err(got.error);
    }
    var current := got.value;
    match reply {
      case NoRoom =>
        return m, Ok(Some(NotEnoughMemory));
      case ResizeFailed(f) =>
        return m, Err(f);
      case Resized(after) =>
        var dest: nat := MasterPointer(after, h) as int + current as int;
        if Mapped(after.mem, ptr, size) {
          var mem' := CopyAscending(after.mem, ptr, dest, size);
          AppendLoopEstablishes(m, h, ptr, size, after, dest, mem');
          m', r := after.(mem := mem'), Ok(Some(0));
          if size == 0 {
            assert mem' == after.mem;
          }
        } else if size == 0 {
          m', r := after, Ok(Some(0));
        } else {
          // Only the reads can fault: the new tail is mapped. They stop at
          // the first unmapped byte from `ptr` on.
          var k := MappedFrom(after.mem, ptr);
          var mem' := after.mem;
          if k > 0 {
            mem' := CopyAscending(after.mem, ptr, dest, k);
          }
          AppendFaultEstablishes(m, h, ptr, size, after, dest, k, mem');
          m', r := after.(mem := mem'), Err(MemoryFault);
        }
    }
  }
}

=== FILE: shim_table.dfy ===
/** The name-to-handler table `install_shims` builds once at start-up:
    which Memory Manager routine name the guest calls reaches which shim
    of `MacMemory`. Each name is registered exactly once, so the table is
    written here as the finished map. */
module ShimTable {
  import MacMemory
  import opened Wrappers

  /** The shims of `MacMemory`, one constructor per handler function. A
      constructor is tied to the `MacMemory` function of the same name by
      that name only: the shims take different reply parameters, so the
      table records which routine is reached, not a function value. */
  datatype Handler =
    | NewHandle | NewPtr | DisposePtr | GetPtrSize | SetPtrSize
    | DisposeHandle | GetHandleSize | SetHandleSize | BlockMoveData
    | HGetState | PtrAndHand | StubReturnVoid

  const Table: map<string, Handler> := map[
    "NewHandle" := NewHandle,
    "NewHandleClear" := NewHandle,
    "NewPtr" := NewPtr,
    "NewPtrClear" := NewPtr,
    "HLock" := StubReturnVoid,
    "HUnlock" := StubReturnVoid,
    "HLockHi" := StubReturnVoid,
    "MoveHHi" := StubReturnVoid,
    "DisposePtr" := DisposePtr,
    "GetPtrSize" := GetPtrSize,
    "SetPtrSize" := SetPtrSize,
    "DisposeHandle" := DisposeHandle,
    "GetHandleSize" := GetHandleSize,
    "SetHandleSize" := SetHandleSize,
    "BlockMoveData" := BlockMoveData,
    "HGetState" := HGetState,
    "HSetState" := StubReturnVoid,
    "PtrAndHand" := PtrAndHand
  ]

  /** Exactly these eighteen routine names are installed; any other name
      the guest calls finds no Memory Manager handler here. */
  lemma InstalledRoutines()
    ensures Table.Keys == {
      "NewHandle", "NewHandleClear", "NewPtr", "NewPtrClear",
      "HLock", "HUnlock", "HLockHi", "MoveHHi",
      "DisposePtr", "GetPtrSize", "SetPtrSize",
      "DisposeHandle", "GetHandleSize", "SetHandleSize",
      "BlockMoveData", "HGetState", "HSetState", "PtrAndHand"}
  {
  }

  /** NewHandleClear and NewPtrClear reach the very handlers of NewHandle
      and NewPtr, so the "clear" variants hand out the heap's block as it
      is, without zeroing it. */
  lemma ClearVariantsShareHandlers()
    ensures "NewHandleClear" in Table && "NewHandle" in Table
    ensures Table["NewHandleClear"] == Table["NewHandle"] == NewHandle
    ensures "NewPtrClear" in Table && "NewPtr" in Table
    ensures Table["NewPtrClear"] == Table["NewPtr"] == NewPtr
  {
  }

  /** HLock, HUnlock, HLockHi, MoveHHi and HSetState reach the void stub,
      which returns no value and leaves the machine as it was. */
  lemma StubbedRoutinesDoNothing(m: MacMemory.Machine)
    ensures forall name :: name in {"HLock", "HUnlock", "HLockHi", "MoveHHi", "HSetState"} ==>
      name in Table && Table[name] == StubReturnVoid
    ensures MacMemory.StubReturnVoid(m) == (Ok(None), m)
  {
  }
}

=== FILE: wrappers.dfy ===
/** Option and Result, the two failure-compatible wrappers the model uses
    for Rust's `Option<T>` and `Result<T, E>`. */
module Wrappers {

  datatype Option<+T> = None | Some(value: T) {

    predicate IsFailure() {
      None?
    }

    function PropagateFailure<U>(): Option<U>
      requires None?
    {
      None
    }

    function Extract(): T
      requires Some?
    {
      value
    }
  }

  datatype Result<+T, +E> = Ok(value: T) | Err(error: E) {

    predicate IsFailure() {
      Err?
    }

    function PropagateFailure<U>(): Result<U, E>
      requires Err?
    {
      Err(error)
    }

    function Extract(): T
      requires Ok?
    {
      value
    }
  }
}
